=== FILE: README.md ===
# StudyBud forum core in Dafny

This project models the domain logic of the StudyBud forum's views:
how rooms, messages and topics are searched, how a message is posted to a
room, how a topic is resolved by get-or-create, and how the owner guards and
the two-phase confirm/execute flow protect room and message changes.

The store is an immutable value (`Store.Store`). It holds users, topics,
rooms and messages as sequences in natural (insertion) order, plus an id
counter for each of the topic, room and message tables; no view here creates
users. Each view is a pure function from the store and the
request's inputs. The read-only views return what they show: `Search.Home`
a `HomePage`, `Search.TopicsPage` a topic list and `RoomView.ViewRoom` an
optional `RoomPage`. The views that can write return a `Response`, which is
a status and the store afterwards. The statuses are:

- `Done`: the mutation ran and the client is redirected.
- `Shown`: a page was rendered and nothing was written. For the delete views
  this is the confirmation page.
- `Forbidden`: the actor does not own the row.
- `NotFound`: no row has the requested id.
- `Refused`: an anonymous author was refused at the message insert.

Request state is passed in as parameters:

- The session's user is `actor`. It is an `Option<UserId>` for the room view,
  which has no login gate. It is a `UserId` with a `requires IsUser(s, actor)`
  for the views behind `login_required`.
- The request method is `isPost`.
- The clock reading that stamps a new message is `now`.
- The query parameter is an `Option<string>`. `None` means the parameter was
  absent.

Modules:

- `Text`: the substring predicate (the reference definition), ASCII case
  folding, and the executable `contains`/`icontains` tests proved equal to it.
- `Store`: the entities, the lookups by id and by name, the generic
  `IndexOf`/`Filter`/`RemoveAt`, and the store invariant `Valid`. `Valid`
  requires unique topic, room and message keys below their counters, unique topic names, and that
  every host, topic, participant and author reference resolves.
- `Search`: the home page and the topics page.
- `RoomView`: the room page, with its newest-first listing and the POST branch.
- `Lifecycle`: topic get-or-create and the create, update and delete views.
- `Scenario`: cross-view properties and a worked search example.

Two behaviours of the code are modelled as the code has them:

- The `room` view carries no login decorator. An anonymous POST reaches
  `Message.objects.create`, which rejects a non-user author. The model
  answers `Refused` and writes nothing.
- `objects.get` raises on a missing id. The model's `NotFound` stands for
  that raised lookup: nothing is written and no page is produced.

## Model

| member | source | states |
|---|---|---|
| Text.Contains | base/views.py:67-68 | the `contains` lookup: true exactly when the query is a case-sensitive substring of the field |
| Text.IContains | base/views.py:66 | the `icontains` lookup: true exactly when the lower-cased query is a substring of the lower-cased field |
| Text.ContainsImpliesIContains | base/views.py:66-68 | any field matched by `contains` is also matched by `icontains` with the same query |
| Text.EmptyOccursEverywhere | base/views.py:61-69 | the empty query matches every field, both case-sensitively and case-insensitively |
| Search.QueryOf | base/views.py:61-64 | with `q` absent, the query passes both `contains` and `icontains` on every field, so it filters nothing; with `q` present, `contains` with the query holds exactly on the fields `q` occurs in. The topics page (lines 186-189) normalises `q` the same way |
| Search.AbsentQueryIsEmptyQuery | base/views.py:61-64 | an absent `q` gives the same home page and topics page as `q = ""` |
| Search.FilterRooms | base/views.py:65-69 | a room is kept iff the query occurs in its topic's name ignoring case, OR in its name, OR in its description (both case-sensitive); no room appears more often than in the room table |
| Search.FilterMessagesByRoomName | base/views.py:73 | a message is kept iff the query occurs, ignoring case, in the name of the message's room |
| Search.FilterTopics | base/views.py:190 | a topic is kept iff the query occurs in its name, ignoring case |
| Search.Home | base/views.py:60-76 | the home page lists exactly the matching rooms; `room_count` equals the number listed; the feed holds exactly the messages whose room name matches; the sidebar is a prefix of the topic table of length at most 5, and is the whole table when it has fewer than 5 topics |
| Search.TopicsPage | base/views.py:185-191 | the topics page lists exactly the topics whose name contains the normalised query, ignoring case |
| Search.EmptyQueryListsEverything | base/views.py:65-72 | with an absent or empty query, the home page lists every room with a count equal to the table size, its feed holds every message whose room exists, and the topics page lists every topic |
| RoomView.SortNewestFirst | base/views.py:81 | the `order_by('-created')` listing is ordered by `created` descending and is a permutation of its input |
| RoomView.RoomMessages | base/views.py:81 | a room's listing holds exactly that room's messages, newest first |
| RoomView.ViewRoom | base/views.py:79-82 | a missing room id gives no page; otherwise the page shows that room, its participant set, and its messages newest first |
| RoomView.PostMessage | base/views.py:79-93 | a missing room is NotFound; a non-POST request, or an anonymous POST, leaves the store unchanged; an authenticated POST appends exactly one message (this author, this room, the body unchanged, stamped `now`), adds the author to this room's participants, and changes no other room, topic or user |
| RoomView.PosterJoinsRoom | base/views.py:90 | after posting, the author is a participant; the participant set gained only the author, and is unchanged if the author already participated |
| RoomView.RepeatedPostAddsNoParticipant | base/views.py:90 | a second post by the same author leaves every room exactly as the first post left it, while adding a second message |
| RoomView.PostGrowsListingByOne | base/views.py:81-89 | after posting, the room's listing is the old listing plus exactly the new message |
| RoomView.NewestPostListedFirst | base/views.py:81-89 | a post stamped later than every stored message comes first in the room's newest-first listing |
| RoomView.PostPreservesValid | base/views.py:84-90 | posting as a stored user keeps the store invariant: fresh unique message id, and every host, topic, participant and author reference resolves |
| Lifecycle.GetOrCreateTopic | base/views.py:110 | if a topic with exactly that name exists, it is reused and the store is unchanged; otherwise exactly one topic with that name and a fresh id is appended |
| Lifecycle.GetOrCreateIdempotent | base/views.py:136 | get-or-create run again with the same name returns the same topic, creates nothing and changes nothing |
| Lifecycle.GetOrCreateResolvesTheNamedTopic | base/views.py:110 | when topic names are unique, the resolved topic is the only topic with that name |
| Lifecycle.GetOrCreatePreservesValid | base/views.py:110 | get-or-create keeps the store invariant, including unique topic names |
| Lifecycle.IsRoomHost | base/views.py:131 | the owner guard of update and delete room (also line 151), applied to the loaded room: when it passes, some room with that id is hosted by the actor; with unique room ids, it passes exactly when every room with that id is hosted by the actor |
| Lifecycle.IsMessageAuthor | base/views.py:164 | the owner guard of delete message, applied to the loaded message: when it passes, some message with that id was written by the actor; with unique message ids, it passes exactly when every message with that id was written by the actor |
| Lifecycle.CreateRoom | base/views.py:103-118 | a non-POST request writes nothing; a POST appends one room with a fresh id, `host = actor`, the submitted name and description, no participants and a topic named as submitted; it adds at most one topic, and only when no topic had that name; the room counter advances by one and the topic counter only when a topic was added |
| Lifecycle.CreateRoomPreservesValid | base/views.py:108-117 | creating a room keeps the store invariant |
| Lifecycle.UpdateRoom | base/views.py:125-141 | a missing room is NotFound; a non-host gets Forbidden whatever the method, with the store unchanged; a host's non-POST request writes nothing; a host's POST overwrites only that room's name, topic and description, keeping its id, host and participants and every other room; only the topic counter can advance, and only when a topic was added |
| Lifecycle.UpdateRoomPreservesValid | base/views.py:134-140 | updating a room keeps the store invariant |
| Lifecycle.DeleteRoom | base/views.py:147-157 | a missing room is NotFound; a non-host gets Forbidden with the store unchanged; a host's non-POST request only asks for confirmation; a confirmed delete removes exactly one occurrence of that room from the room table and leaves users, topics and the id counters as they were |
| Lifecycle.ConfirmedDeleteRoomRemovesOnlyIt | base/views.py:154-155 | in a valid store, after a confirmed delete no room has that id and every other room id is still present |
| Lifecycle.DeleteRoomPreservesValid | base/views.py:154-155 | deleting a room keeps the store invariant |
| Lifecycle.DeleteMessage | base/views.py:160-170 | a missing message is NotFound; a non-author gets Forbidden with the store unchanged; an author's non-POST request only asks for confirmation; a confirmed delete removes exactly one occurrence of that message and changes no room, topic, user or id counter |
| Lifecycle.ConfirmedDeleteMessageRemovesOnlyIt | base/views.py:167-168 | in a valid store, after a confirmed delete no message has that id and every other message id is still present |
| Lifecycle.DeleteMessagePreservesValid | base/views.py:167-168 | deleting a message keeps the store invariant |
| Scenario.CreatedRoomIsFound | base/views.py:65-69 | a freshly created room is found by a home search for its own name and, when topic names are unique, by a search for its topic's name in lower case |
| Scenario.SeededByCreateRoom | base/views.py:108-117 | Alice creating room "Intro" under the new topic "Python" yields the store with one topic and one room hosted by Alice |
| Scenario.TopicSearchIgnoresCase | base/views.py:66 | on that store, searching "python" finds "Intro" through its topic |
| Scenario.RoomNameSearchFindsExactName | base/views.py:67 | searching "Intro" finds "Intro" through its name |
| Scenario.SeededTopicMissed | base/views.py:66 | on that store, a query starting with a lower-case letter that does not occur in "python" misses topic "Python", because the topic is matched after folding case |
| Scenario.SeededSearchMisses | base/views.py:65-69 | on that store, a query starting with a lower-case letter that occurs in none of the room's three fields lists no room |
| Scenario.RoomNameSearchIsCaseSensitive | base/views.py:67-68 | searching "intro" finds nothing: room name and description match case-sensitively |
| Scenario.UnrelatedSearchFindsNothing | base/views.py:65-72 | searching "zzz" finds nothing and reports a count of 0 |

## Left out

- Login, logout and registration (`loginPage`, `logoutUser`, `registerUser`). They delegate to the framework's authenticator, session handling and form validation, none of which is visible here.
- `updateUser`: form validation and file upload.
- `userProfile` and `activityPage`: unfiltered reads with nothing to state beyond the tables themselves.
- Rendering, templates, redirects and response bodies. The `login_required` redirect is modelled only as the `IsUser(s, actor)` precondition of the gated views.
- The form and the topic list that the create and update views load before rendering (base/views.py:105-106, 128-129). They are reads with no effect on the store.
- Lifecycle.DeleteRoom: says nothing about the messages of the deleted room. What the delete does to them is decided by the model definitions (`models.py`), which are not part of this model. The function leaves the message table as it was, and `Valid` does not require a message's room to exist.
- Case folding covers ASCII letters only. The database's own case-insensitive comparison may fold more characters.
- Search.FilterRooms: follows the documented meaning of `contains` (case-sensitive). On an SQLite backend the framework's `contains` compares ASCII letters case-insensitively, and the model does not reproduce that.
- Result order of the room, message and topic searches is the store's natural order. The contracts state which rows appear and that no row appears more often than in its table, but not their order: any ordering declared in the model definitions is not visible.
- Room `created`/`updated` timestamps are not modelled. A message's `created` stamp is the `now` parameter.
- A missing form field (`request.POST.get` returning `None` for `body`, `topic`, `name` or `description`) is not modelled. Every submitted field is a string.
- A topic table with two topics of the same name is excluded by `Valid`, since the ORM's `get` inside get-or-create would raise on it. Outside `Valid`, the model resolves to the first such topic.
- The get-or-create race between concurrent requests, and all other concurrency: each view is one sequential step.

=== FILE: lifecycle.dfy ===
/** Creating, updating and deleting rooms, and deleting messages.

  Every view here sits behind the login gate, so the actor is a stored user.
  Update and delete load the row first (a missing id is NotFound), then turn
  away anyone but its owner (Forbidden, whatever the request method), and
  only a POST carries out the change; any other method renders the form or
  the confirmation page and writes nothing.
 */
module Lifecycle {
  import opened Store

  /** The outcome of get-or-create: the store afterwards, the topic it
      resolved to, and whether that topic was new. */
  datatype TopicChoice = TopicChoice(store: Store, topic: TopicId, created: bool)

  /** Looks a topic up by exact name and inserts it when there is none. */
  function GetOrCreateTopic(s: Store, name: string): (c: TopicChoice)
    ensures Topic(c.topic, name) in c.store.topics
    ensures c.created <==> !HasTopicNamed(s, name)
    ensures !c.created ==> c.store == s
    ensures c.created ==> c.store == s.(topics := s.topics + [Topic(s.nextTopic, name)], nextTopic := s.nextTopic + 1)
    ensures c.created ==> c.topic == s.nextTopic
  {
    match FindTopicNamed(s, name)
    case Some(i) => TopicChoice(s, s.topics[i].id, false)
    case None =>
      var t := Topic(s.nextTopic, name);
      TopicChoice(s.(topics := s.topics + [t], nextTopic := s.nextTopic + 1), t.id, true)
  }

  /** The owner guard of the update- and delete-room views, applied to the row
      the lookup by id loaded: its host is let through and every other user
      is turned away. With unique room ids that is the same as asking that
      every row with the id be hosted by the actor. */
  function IsRoomHost(s: Store, actor: UserId, id: RoomId): (allowed: bool)
    requires HasRoom(s, id)
    ensures allowed ==> exists i :: 0 <= i < |s.rooms| && s.rooms[i].id == id && s.rooms[i].host == actor
    ensures RoomsWellKeyed(s) ==>
      (allowed <==> forall i :: 0 <= i < |s.rooms| && s.rooms[i].id == id ==> s.rooms[i].host == actor)
  {
    actor == s.rooms[FindRoom(s, id).value].host
  }

  /** The owner guard of the delete-message view: only the author of the
      loaded message is let through. */
  function IsMessageAuthor(s: Store, actor: UserId, id: MessageId): (allowed: bool)
    requires HasMessage(s, id)
    ensures allowed ==> exists i :: 0 <= i < |s.messages| && s.messages[i].id == id && s.messages[i].author == actor
    ensures MessagesWellKeyed(s) ==>
      (allowed <==> forall i :: 0 <= i < |s.messages| && s.messages[i].id == id ==> s.messages[i].author == actor)
  {
    actor == s.messages[FindMessage(s, id).value].author
  }

  /** The create-room view. */
  function CreateRoom(s: Store, actor: UserId, isPost: bool, topicName: string, name: string, description: string): (resp: Response)
    requires IsUser(s, actor)
    ensures !isPost ==> resp == Response(Shown, s)
    ensures isPost ==>
      var s' := resp.store;
      && resp.status == Done
      && |s'.rooms| == |s.rooms| + 1
      && s.rooms <= s'.rooms
      && s'.rooms[|s.rooms|].id == s.nextRoom
      && s'.rooms[|s.rooms|].host == actor
      && s'.rooms[|s.rooms|].name == name
      && s'.rooms[|s.rooms|].description == description
      && s'.rooms[|s.rooms|].participants == {}
      && Topic(s'.rooms[|s.rooms|].topic, topicName) in s'.topics
      && s.topics <= s'.topics
      && |s'.topics| == |s.topics| + (if HasTopicNamed(s, topicName) then 0 else 1)
      && s'.nextTopic == s.nextTopic + (if HasTopicNamed(s, topicName) then 0 else 1)
      && s'.nextRoom == s.nextRoom + 1 && s'.nextMessage == s.nextMessage
      && s'.users == s.users && s'.messages == s.messages
  {
    if !isPost then Response(Shown, s)
    else
      var c := GetOrCreateTopic(s, topicName);
      var room := Room(s.nextRoom, actor, c.topic, name, description, {});
      Response(Done, c.store.(rooms := c.store.rooms + [room], nextRoom := c.store.nextRoom + 1))
  }

  /** The update-room view. */
  function UpdateRoom(s: Store, actor: UserId, id: RoomId, isPost: bool, topicName: string, name: string, description: string): (resp: Response)
    requires IsUser(s, actor)
    ensures resp.status == NotFound <==> !HasRoom(s, id)
    ensures resp.status == Forbidden <==> HasRoom(s, id) && !IsRoomHost(s, actor, id)
    ensures resp.status == Done <==> HasRoom(s, id) && IsRoomHost(s, actor, id) && isPost
    ensures resp.status != Done ==> resp.store == s
    ensures resp.status == Done ==>
      var s' := resp.store;
      var i := FindRoom(s, id).value;
      && |s'.rooms| == |s.rooms|
      && (forall j :: 0 <= j < |s.rooms| && j != i ==> s'.rooms[j] == s.rooms[j])
      && s'.rooms[i].name == name
      && s'.rooms[i].description == description
      && Topic(s'.rooms[i].topic, topicName) in s'.topics
      && s'.rooms[i].id == s.rooms[i].id
      && s'.rooms[i].host == s.rooms[i].host
      && s'.rooms[i].participants == s.rooms[i].participants
      && s.topics <= s'.topics
      && |s'.topics| == |s.topics| + (if HasTopicNamed(s, topicName) then 0 else 1)
      && s'.nextTopic == s.nextTopic + (if HasTopicNamed(s, topicName) then 0 else 1)
      && s'.nextRoom == s.nextRoom && s'.nextMessage == s.nextMessage
      && s'.users == s.users && s'.messages == s.messages
  {
    match FindRoom(s, id)
    case None => Response(NotFound, s)
    case Some(i) =>
      var room := s.rooms[i];
      if !IsRoomHost(s, actor, id) then Response(Forbidden, s)
      else if !isPost then Response(Shown, s)
      else
        var c := GetOrCreateTopic(s, topicName);
        var room' := room.(name := name, topic := c.topic, description := description);
        Response(Done, c.store.(rooms := c.store.rooms[i := room']))
  }

  /** The delete-room view: a confirmation page, then the delete on POST.
      What the delete does to the room's messages is not modelled. */
  function DeleteRoom(s: Store, actor: UserId, id: RoomId, isPost: bool): (resp: Response)
    requires IsUser(s, actor)
    ensures resp.status == NotFound <==> !HasRoom(s, id)
    ensures resp.status == Forbidden <==> HasRoom(s, id) && !IsRoomHost(s, actor, id)
    ensures resp.status == Done <==> HasRoom(s, id) && IsRoomHost(s, actor, id) && isPost
    ensures resp.status != Done ==> resp.store == s
    ensures resp.status == Done ==>
      var s' := resp.store;
      var i := FindRoom(s, id).value;
      && multiset(s'.rooms) == multiset(s.rooms) - multiset{s.rooms[i]}
      && |s'.rooms| == |s.rooms| - 1
      && s'.users == s.users && s'.topics == s.topics
      && s'.nextTopic == s.nextTopic && s'.nextRoom == s.nextRoom && s'.nextMessage == s.nextMessage
  {
    match FindRoom(s, id)
    case None => Response(NotFound, s)
    case Some(i) =>
      if !IsRoomHost(s, actor, id) then Response(Forbidden, s)
      else if !isPost then Response(Shown, s)
      else Response(Done, s.(rooms := RemoveAt(s.rooms, i)))
  }

  /** The delete-message view: a confirmation page, then the delete on POST. */
  function DeleteMessage(s: Store, actor: UserId, id: MessageId, isPost: bool): (resp: Response)
    requires IsUser(s, actor)
    ensures resp.status == NotFound <==> !HasMessage(s, id)
    ensures resp.status == Forbidden <==> HasMessage(s, id) && !IsMessageAuthor(s, actor, id)
    ensures resp.status == Done <==> HasMessage(s, id) && IsMessageAuthor(s, actor, id) && isPost
    ensures resp.status != Done ==> resp.store == s
    ensures resp.status == Done ==>
      var s' := resp.store;
      var i := FindMessage(s, id).value;
      && multiset(s'.messages) == multiset(s.messages) - multiset{s.messages[i]}
      && |s'.messages| == |s.messages| - 1
      && s'.users == s.users && s'.topics == s.topics && s'.rooms == s.rooms
      && s'.nextTopic == s.nextTopic && s'.nextRoom == s.nextRoom && s'.nextMessage == s.nextMessage
  {
    match FindMessage(s, id)
    case None => Response(NotFound, s)
    case Some(i) =>
      if !IsMessageAuthor(s, actor, id) then Response(Forbidden, s)
      else if !isPost then Response(Shown, s)
      else Response(Done, s.(messages := RemoveAt(s.messages, i)))
  }

  /** Get-or-create is idempotent: asking again for the same name finds the
      topic the first call resolved to and writes nothing. */
  lemma GetOrCreateIdempotent(s: Store, name: string)
    ensures var c1 := GetOrCreateTopic(s, name);
      var c2 := GetOrCreateTopic(c1.store, name);
      c2 == TopicChoice(c1.store, c1.topic, false)
  {
  }

  /** Under unique topic names, the topic get-or-create resolves to is the
      only one with that name. */
  lemma GetOrCreateResolvesTheNamedTopic(s: Store, name: string)
    requires TopicsWellKeyed(s)
    ensures var c := GetOrCreateTopic(s, name);
      forall j :: 0 <= j < |c.store.topics| && c.store.topics[j].name == name ==> c.store.topics[j].id == c.topic
  {
  }

  lemma GetOrCreatePreservesValid(s: Store, name: string)
    requires Valid(s)
    ensures Valid(GetOrCreateTopic(s, name).store)
  {
    var c := GetOrCreateTopic(s, name);
    if c.created {
      var s' := c.store;
      assert forall t :: HasTopic(s, t) ==> HasTopic(s', t) by {
        forall t | HasTopic(s, t) ensures HasTopic(s', t) {
          var i :| 0 <= i < |s.topics| && s.topics[i].id == t;
          assert s'.topics[i] == s.topics[i];
        }
      }
      assert forall u :: IsUser(s', u) == IsUser(s, u);
    }
  }

  /** Appending a fresh room whose references resolve keeps the invariant. */
  lemma AppendRoomPreservesValid(s: Store, r: Room)
    requires Valid(s)
    requires r.id == s.nextRoom && RoomRefsResolve(s, r)
    ensures Valid(s.(rooms := s.rooms + [r], nextRoom := s.nextRoom + 1))
  {
    var s' := s.(rooms := s.rooms + [r], nextRoom := s.nextRoom + 1);
    assert forall j :: 0 <= j < |s.rooms| ==> s'.rooms[j] == s.rooms[j];
    assert RoomsWellKeyed(s');
    assert ReferencesResolve(s') by {
      assert forall u :: IsUser(s', u) == IsUser(s, u);
      assert forall t :: HasTopic(s', t) == HasTopic(s, t);
    }
  }

  /** Rewriting a room in place, keeping its id, keeps the invariant when the
      new row's references resolve. */
  lemma ReplaceRoomPreservesValid(s: Store, i: nat, r: Room)
    requires Valid(s)
    requires i < |s.rooms| && r.id == s.rooms[i].id && RoomRefsResolve(s, r)
    ensures Valid(s.(rooms := s.rooms[i := r]))
  {
    var s' := s.(rooms := s.rooms[i := r]);
    assert RoomsWellKeyed(s');
    assert ReferencesResolve(s') by {
      assert forall u :: IsUser(s', u) == IsUser(s, u);
      assert forall t :: HasTopic(s', t) == HasTopic(s, t);
    }
  }

  lemma RemoveRoomPreservesValid(s: Store, i: nat)
    requires Valid(s) && i < |s.rooms|
    ensures Valid(s.(rooms := RemoveAt(s.rooms, i)))
  {
    var s' := s.(rooms := RemoveAt(s.rooms, i));
    assert forall j :: 0 <= j < |s'.rooms| ==> s'.rooms[j] == s.rooms[if j < i then j else j + 1];
    assert RoomsWellKeyed(s');
    assert ReferencesResolve(s') by {
      assert forall u :: IsUser(s', u) == IsUser(s, u);
      assert forall t :: HasTopic(s', t) == HasTopic(s, t);
    }
  }

  lemma ResolvedTopicExists(s: Store, name: string)
    ensures var c := GetOrCreateTopic(s, name);
      HasTopic(c.store, c.topic)
  {
  }

  lemma CreateRoomPreservesValid(s: Store, actor: UserId, isPost: bool, topicName: string, name: string, description: string)
    requires Valid(s) && IsUser(s, actor)
    ensures Valid(CreateRoom(s, actor, isPost, topicName, name, description).store)
  {
    if isPost {
      var c := GetOrCreateTopic(s, topicName);
      GetOrCreatePreservesValid(s, topicName);
      ResolvedTopicExists(s, topicName);
      var s1 := c.store;
      var r := Room(s.nextRoom, actor, c.topic, name, description, {});
      assert s1.nextRoom == s.nextRoom && s1.users == s.users;
      assert IsUser(s1, actor);
      assert RoomRefsResolve(s1, r);
      AppendRoomPreservesValid(s1, r);
      assert CreateRoom(s, actor, isPost, topicName, name, description).store
        == s1.(rooms := s1.rooms + [r], nextRoom := s1.nextRoom + 1);
    }
  }

  lemma UpdateRoomPreservesValid(s: Store, actor: UserId, id: RoomId, isPost: bool, topicName: string, name: string, description: string)
    requires Valid(s) && IsUser(s, actor)
    ensures Valid(UpdateRoom(s, actor, id, isPost, topicName, name, description).store)
  {
    var resp := UpdateRoom(s, actor, id, isPost, topicName, name, description);
    if resp.status == Done {
      var c := GetOrCreateTopic(s, topicName);
      GetOrCreatePreservesValid(s, topicName);
      ResolvedTopicExists(s, topicName);
      var i := FindRoom(s, id).value;
      var room := s.rooms[i];
      assert c.store.rooms == s.rooms && c.store.users == s.users;
      assert RoomRefsResolve(s, room);
      ReplaceRoomPreservesValid(c.store, i, room.(name := name, topic := c.topic, description := description));
    }
  }

  lemma DeleteRoomPreservesValid(s: Store, actor: UserId, id: RoomId, isPost: bool)
    requires Valid(s) && IsUser(s, actor)
    ensures Valid(DeleteRoom(s, actor, id, isPost).store)
  {
    var resp := DeleteRoom(s, actor, id, isPost);
    if resp.status == Done {
      RemoveRoomPreservesValid(s, FindRoom(s, id).value);
    }
  }

  lemma DeleteMessagePreservesValid(s: Store, actor: UserId, id: MessageId, isPost: bool)
    requires Valid(s) && IsUser(s, actor)
    ensures Valid(DeleteMessage(s, actor, id, isPost).store)
  {
    var resp := DeleteMessage(s, actor, id, isPost);
    if resp.status == Done {
      var s' := resp.store;
      var i := FindMessage(s, id).value;
      assert forall j :: 0 <= j < |s'.messages| ==> s'.messages[j] == s.messages[if j < i then j else j + 1];
      assert forall u :: IsUser(s', u) == IsUser(s, u);
      assert forall t :: HasTopic(s', t) == HasTopic(s, t);
    }
  }

  /** A confirmed delete by the author removes exactly the requested message:
      afterwards no message has that id and every other id is still present. */
  lemma ConfirmedDeleteMessageRemovesOnlyIt(s: Store, actor: UserId, id: MessageId)
    requires Valid(s) && IsUser(s, actor)
    requires DeleteMessage(s, actor, id, true).status == Done
    ensures var s' := DeleteMessage(s, actor, id, true).store;
      && !HasMessage(s', id)
      && forall other :: other != id ==> HasMessage(s', other) == HasMessage(s, other)
  {
    var s' := DeleteMessage(s, actor, id, true).store;
    var i := FindMessage(s, id).value;
    assert forall j :: 0 <= j < |s'.messages| ==> s'.messages[j] == s.messages[if j < i then j else j + 1];
    forall other | other != id && HasMessage(s, other)
      ensures HasMessage(s', other)
    {
      var k :| 0 <= k < |s.messages| && s.messages[k].id == other;
      assert k != i;
      var k' := if k < i then k else k - 1;
      assert s'.messages[k'] == s.messages[k];
    }
  }

  /** A confirmed delete by the host removes exactly the requested room row. */
  lemma ConfirmedDeleteRoomRemovesOnlyIt(s: Store, actor: UserId, id: RoomId)
    requires Valid(s) && IsUser(s, actor)
    requires DeleteRoom(s, actor, id, true).status == Done
    ensures var s' := DeleteRoom(s, actor, id, true).store;
      && !HasRoom(s', id)
      && forall other :: other != id ==> HasRoom(s', other) == HasRoom(s, other)
  {
    var s' := DeleteRoom(s, actor, id, true).store;
    var i := FindRoom(s, id).value;
    assert forall j :: 0 <= j < |s'.rooms| ==> s'.rooms[j] == s.rooms[if j < i then j else j + 1];
    forall other | other != id && HasRoom(s, other)
      ensures HasRoom(s', other)
    {
      var k :| 0 <= k < |s.rooms| && s.rooms[k].id == other;
      assert k != i;
      var k' := if k < i then k else k - 1;
      assert s'.rooms[k'] == s.rooms[k];
    }
  }
}

=== FILE: room_view.dfy ===
/** The room page: viewing a room and posting a message to it.

  Viewing lists the room's messages newest first and its participants.
  Posting creates one message (author = actor, room = this room, body as
  submitted, no trimming or length check) and then adds the actor to the
  room's participant set. The view carries no login gate: an anonymous
  actor's post reaches the message insert, which refuses a non-user author,
  so nothing is written.
 */
module RoomView {
  import opened Store

  ghost predicate SortedNewestFirst(ms: seq<Message>) {
    forall i, j :: 0 <= i < j < |ms| ==> ms[i].created >= ms[j].created
  }

  /** Places m into a newest-first list, before every message not newer than it. */
  function Insert(m: Message, ms: seq<Message>): (r: seq<Message>)
    requires SortedNewestFirst(ms)
    ensures SortedNewestFirst(r)
    ensures multiset(r) == multiset(ms) + multiset{m}
    ensures |r| > 0 && (r[0] == m || (|ms| > 0 && r[0] == ms[0]))
  {
    if |ms| == 0 || m.created >= ms[0].created then
      [m] + ms
    else
      assert ms == [ms[0]] + ms[1..];
      [ms[0]] + Insert(m, ms[1..])
  }

  /** The `order_by('-created')` listing. */
  function SortNewestFirst(ms: seq<Message>): (r: seq<Message>)
    ensures SortedNewestFirst(r)
    ensures multiset(r) == multiset(ms)
  {
    if |ms| == 0 then []
    else
      assert ms == [ms[0]] + ms[1..];
      Insert(ms[0], SortNewestFirst(ms[1..]))
  }

  /** The messages of room `id`, newest first. */
  function RoomMessages(s: Store, id: RoomId): (ms: seq<Message>)
    ensures SortedNewestFirst(ms)
    ensures forall m :: m in ms <==> m in s.messages && m.room == id
    ensures multiset(ms) <= multiset(s.messages)
  {
    var own := Filter(s.messages, (m: Message) => m.room == id);
    var sorted := SortNewestFirst(own);
    SameMultisetSameMembers(sorted, own);
    sorted
  }

  lemma SameMultisetSameMembers<T>(a: seq<T>, b: seq<T>)
    requires multiset(a) == multiset(b)
    ensures forall x :: x in a <==> x in b
  {
    forall x
      ensures x in a <==> x in b
    {
      assert x in a <==> x in multiset(a);
      assert x in b <==> x in multiset(b);
    }
  }

  datatype RoomPage = RoomPage(room: Room, messages: seq<Message>, participants: set<UserId>)

  /** Loads room `id` for display. */
  function ViewRoom(s: Store, id: RoomId): (p: Option<RoomPage>)
    ensures p.None? <==> !HasRoom(s, id)
    ensures p.Some? ==> p.value.room in s.rooms && p.value.room.id == id
    ensures p.Some? ==> p.value.participants == p.value.room.participants
    ensures p.Some? ==> SortedNewestFirst(p.value.messages)
    ensures p.Some? ==> forall m :: m in p.value.messages <==> m in s.messages && m.room == id
  {
    match FindRoom(s, id)
    case None => None
    case Some(i) =>
      var room := s.rooms[i];
      Some(RoomPage(room, RoomMessages(s, id), room.participants))
  }

  /** The room view with its POST branch. `isPost` is the request method,
      `actor` the session's user (None when anonymous), `now` the clock. */
  function PostMessage(s: Store, id: RoomId, actor: Option<UserId>, isPost: bool, body: string, now: int): (resp: Response)
    ensures resp.status == NotFound <==> !HasRoom(s, id)
    ensures resp.status != Done ==> resp.store == s
    ensures HasRoom(s, id) && !isPost ==> resp.status == Shown
    ensures HasRoom(s, id) && isPost && actor.None? ==> resp.status == Refused
    ensures resp.status == Done <==> HasRoom(s, id) && isPost && actor.Some?
    ensures resp.status == Done ==>
      var s' := resp.store;
      var i := FindRoom(s, id).value;
      && s'.messages == s.messages + [Message(s.nextMessage, actor.value, id, body, now)]
      && |s'.rooms| == |s.rooms|
      && s'.rooms[i] == s.rooms[i].(participants := s.rooms[i].participants + {actor.value})
      && (forall j :: 0 <= j < |s.rooms| && j != i ==> s'.rooms[j] == s.rooms[j])
      && s'.users == s.users && s'.topics == s.topics
      && s'.nextMessage == s.nextMessage + 1
      && s'.nextTopic == s.nextTopic && s'.nextRoom == s.nextRoom
  {
    match FindRoom(s, id)
    case None => Response(NotFound, s)
    case Some(i) =>
      if !isPost then Response(Shown, s)
      else match actor
        case None => Response(Refused, s)
        case Some(a) =>
          var m := Message(s.nextMessage, a, id, body, now);
          var room := s.rooms[i];
          var room' := room.(participants := room.participants + {a});
          Response(Done, s.(messages := s.messages + [m],
                            rooms := s.rooms[i := room'],
                            nextMessage := s.nextMessage + 1))
  }

  /** After a post the poster participates in the room, and the participant
      set gained nobody else; posting again adds nobody new. */
  lemma PosterJoinsRoom(s: Store, id: RoomId, a: UserId, body: string, now: int)
    requires HasRoom(s, id)
    ensures var s' := PostMessage(s, id, Some(a), true, body, now).store;
      var i := FindRoom(s, id).value;
      && FindRoom(s', id) == Some(i)
      && a in s'.rooms[i].participants
      && s'.rooms[i].participants == s.rooms[i].participants + {a}
      && (a in s.rooms[i].participants ==> s'.rooms[i] == s.rooms[i])
  {
  }

  /** Two posts by the same actor leave the same participant set as one. */
  lemma RepeatedPostAddsNoParticipant(s: Store, id: RoomId, a: UserId, b1: string, t1: int, b2: string, t2: int)
    requires HasRoom(s, id)
    ensures var s1 := PostMessage(s, id, Some(a), true, b1, t1).store;
      var s2 := PostMessage(s1, id, Some(a), true, b2, t2).store;
      && s2.rooms == s1.rooms
      && |s2.messages| == |s.messages| + 2
  {
  }

  /** The posted message joins the room's listing and nothing else does. */
  lemma PostGrowsListingByOne(s: Store, id: RoomId, a: UserId, body: string, now: int)
    requires HasRoom(s, id)
    ensures var s' := PostMessage(s, id, Some(a), true, body, now).store;
      multiset(RoomMessages(s', id)) == multiset(RoomMessages(s, id)) + multiset{Message(s.nextMessage, a, id, body, now)}
  {
    FilterAppend(s.messages, Message(s.nextMessage, a, id, body, now), (x: Message) => x.room == id);
  }

  lemma {:induction false} FilterAppend<T(!new)>(xs: seq<T>, x: T, p: T -> bool)
    ensures Filter(xs + [x], p) == Filter(xs, p) + (if p(x) then [x] else [])
  {
    if |xs| == 0 {
      assert xs + [x] == [x];
      assert [x][1..] == [];
    } else {
      assert (xs + [x])[0] == xs[0];
      assert (xs + [x])[1..] == xs[1..] + [x];
      FilterAppend(xs[1..], x, p);
    }
  }

  /** In a newest-first listing, a message strictly newer than all others comes first. */
  lemma StrictlyNewestIsFirst(listing: seq<Message>, m: Message)
    requires SortedNewestFirst(listing)
    requires m in listing
    requires forall x :: x in listing && x != m ==> x.created < m.created
    ensures listing[0] == m
  {
  }

  /** A post stamped later than every stored message heads the room's listing. */
  lemma NewestPostListedFirst(s: Store, id: RoomId, a: UserId, body: string, now: int)
    requires HasRoom(s, id)
    requires forall j :: 0 <= j < |s.messages| ==> s.messages[j].created < now
    ensures var s' := PostMessage(s, id, Some(a), true, body, now).store;
      var listing := RoomMessages(s', id);
      |listing| > 0 && listing[0] == Message(s.nextMessage, a, id, body, now)
  {
    var s' := PostMessage(s, id, Some(a), true, body, now).store;
    var m := Message(s.nextMessage, a, id, body, now);
    assert s'.messages == s.messages + [m];
    var listing := RoomMessages(s', id);
    assert m in listing;
    forall x | x in listing && x != m
      ensures x.created < m.created
    {
      assert x in s.messages;
    }
    StrictlyNewestIsFirst(listing, m);
  }

  /** Posting as a stored user keeps the store invariant. */
  lemma PostPreservesValid(s: Store, id: RoomId, actor: Option<UserId>, isPost: bool, body: string, now: int)
    requires Valid(s)
    requires actor.Some? ==> IsUser(s, actor.value)
    ensures Valid(PostMessage(s, id, actor, isPost, body, now).store)
  {
    var resp := PostMessage(s, id, actor, isPost, body, now);
    if resp.status == Done {
      var s' := resp.store;
      var i := FindRoom(s, id).value;
      assert forall u :: IsUser(s', u) == IsUser(s, u);
      assert forall t :: HasTopic(s', t) == HasTopic(s, t);
      assert RoomsWellKeyed(s');
      assert MessagesWellKeyed(s') by {
        assert forall j :: 0 <= j < |s.messages| ==> s'.messages[j] == s.messages[j];
      }
      assert ReferencesResolve(s') by {
        forall j, u | 0 <= j < |s'.rooms| && u in s'.rooms[j].participants
          ensures IsUser(s', u)
        {
          if j != i {
            assert u in s.rooms[j].participants;
          }
        }
        forall j | 0 <= j < |s'.messages|
          ensures IsUser(s', s'.messages[j].author)
        {
          if j < |s.messages| {
            assert s'.messages[j] == s.messages[j];
          }
        }
      }
    }
  }
}

=== FILE: scenario.dfy ===
/** Properties that span several views: what a room's creator finds when
    searching afterwards, and a worked example of the search rules. */
module Scenario {
  import opened Text
  import opened Store
  import opened Search
  import opened Lifecycle

  /** A freshly created room is listed when the home page is searched for its
      name, and also when it is searched for its topic's name in lower case. */
  lemma CreatedRoomIsFound(s: Store, actor: UserId, topicName: string, name: string, description: string)
    requires IsUser(s, actor)
    ensures var s' := CreateRoom(s, actor, true, topicName, name, description).store;
      var r := s'.rooms[|s.rooms|];
      && r in Home(s', Some(name)).rooms
      && (TopicsWellKeyed(s') ==> r in Home(s', Some(Lower(topicName))).rooms)
  {
    var s' := CreateRoom(s, actor, true, topicName, name, description).store;
    var r := s'.rooms[|s.rooms|];
    assert OccursAt(name, r.name, 0);
    if TopicsWellKeyed(s') {
      var j :| 0 <= j < |s'.topics| && s'.topics[j] == Topic(r.topic, topicName);
      assert TopicName(s', r.topic) == Some(topicName);
      LowerIdempotent(topicName);
      assert OccursAt(Lower(Lower(topicName)), Lower(topicName), 0);
    }
  }

  const Alice: UserId := 1

  function Empty(): Store {
    Store([User(Alice, "alice")], [], [], [], 1, 1, 1)
  }

  const Intro: Room := Room(1, Alice, 1, "Intro", "Learn Python", {})

  /** The store after Alice creates room "Intro" under the new topic "Python". */
  function Seeded(): Store {
    Store([User(Alice, "alice")], [Topic(1, "Python")], [Intro], [], 2, 2, 1)
  }

  lemma SeededByCreateRoom()
    ensures IsUser(Empty(), Alice)
      && CreateRoom(Empty(), Alice, true, "Python", "Intro", "Learn Python") == Response(Done, Seeded())
  {
    assert Empty().users[0].id == Alice;
  }

  // Searches on the seeded store. A lower-case topic search and an exact
  // room-name search find the room; a lower-case room-name search does not,
  // because room names match case-sensitively; an unrelated query finds
  // nothing and reports a count of zero.

  lemma TopicSearchIgnoresCase()
    ensures Home(Seeded(), Some("python")).rooms == [Intro]
  {
    assert Lower("Python") == "python";
    assert IContains("Python", "python");
  }

  lemma RoomNameSearchFindsExactName()
    ensures Home(Seeded(), Some("Intro")).rooms == [Intro]
  {
  }

  /** A room that fails the search predicate leaves a one-room store's search empty. */
  lemma LoneRoomMissed(q: string)
    requires !RoomMatches(Seeded(), Intro, q)
    ensures Home(Seeded(), Some(q)).rooms == []
  {
  }

  lemma SeededTopicName()
    ensures TopicName(Seeded(), Intro.topic) == Some("Python")
  {
  }

  /** The topic field is matched ignoring case, so a query that starts with a
      lower-case letter missing from "python" misses topic "Python". */
  lemma SeededTopicMissed(q: string)
    requires |q| > 0 && 'a' <= q[0] <= 'z' && q[0] !in "python"
    ensures !IContains("Python", q)
  {
    assert Lower("Python") == "python";
    assert Lower(q)[0] == q[0];
    FirstCharAbsent("python", Lower(q));
  }

  /** A query that starts with a lower-case letter occurring in none of the
      seeded room's fields finds nothing, whatever else it contains. */
  lemma SeededSearchMisses(q: string)
    requires |q| > 0 && 'a' <= q[0] <= 'z'
    requires q[0] !in "Intro" && q[0] !in "Learn Python" && q[0] !in "python"
    ensures Home(Seeded(), Some(q)).rooms == []
  {
    FirstCharAbsent("Intro", q);
    FirstCharAbsent("Learn Python", q);
    SeededTopicMissed(q);
    SeededTopicName();
    LoneRoomMissed(q);
  }

  lemma RoomNameSearchIsCaseSensitive()
    ensures Home(Seeded(), Some("intro")).rooms == []
  {
    SeededSearchMisses("intro");
  }

  lemma UnrelatedSearchFindsNothing()
    ensures Home(Seeded(), Some("zzz")).rooms == []
    ensures Home(Seeded(), Some("zzz")).roomCount == 0
  {
    SeededSearchMisses("zzz");
  }
}

=== FILE: search.dfy ===
/** The listing views: the home page and the topics page.

  The home page keeps a room when the query occurs in its topic's name
  (ignoring case), OR in its own name, OR in its description (both
  case-sensitive). Its message feed keeps a message when the query occurs,
  ignoring case, in the name of the message's room. The topics page keeps a
  topic when the query occurs in its name, ignoring case.
 */
module Search {
  import opened Text
  import opened Store

  /** Number of topics the home page shows in its sidebar. */
  const SidebarTopics: nat := 5

  /** The query the views search for: an absent `q` parameter filters
      nothing, since the empty string passes both lookups on every field,
      and a present one is searched for exactly as given. */
  function QueryOf(param: Option<string>): (q: string)
    ensures param.None? ==> forall x :: Contains(x, q) && IContains(x, q)
    ensures param.Some? ==> forall x :: Contains(x, q) <==> IsSubstring(param.value, x)
  {
    match param
    case None => ""
    case Some(v) => v
  }

  // Reference meaning of each search, stated with the substring predicate.

  ghost predicate RoomMatchesSpec(s: Store, r: Room, q: string) {
    || (match TopicName(s, r.topic)
        case Some(n) => IsSubstring(Lower(q), Lower(n))
        case None => false)
    || IsSubstring(q, r.name)
    || IsSubstring(q, r.description)
  }

  ghost predicate MessageMatchesSpec(s: Store, m: Message, q: string) {
    match RoomName(s, m.room)
    case Some(n) => IsSubstring(Lower(q), Lower(n))
    case None => false
  }

  ghost predicate TopicMatchesSpec(t: Topic, q: string) {
    IsSubstring(Lower(q), Lower(t.name))
  }

  // The lookups the views build: topic name `icontains`, room name and
  // description `contains`, room name `icontains`, topic name `icontains`.

  predicate RoomMatches(s: Store, r: Room, q: string) {
    || (match TopicName(s, r.topic)
        case Some(n) => IContains(n, q)
        case None => false)
    || Contains(r.name, q)
    || Contains(r.description, q)
  }

  predicate MessageMatches(s: Store, m: Message, q: string) {
    match RoomName(s, m.room)
    case Some(n) => IContains(n, q)
    case None => false
  }

  function FilterRooms(s: Store, q: string): (rooms: seq<Room>)
    ensures forall r :: r in rooms <==> r in s.rooms && RoomMatchesSpec(s, r, q)
    ensures multiset(rooms) <= multiset(s.rooms)
  {
    Filter(s.rooms, (r: Room) => RoomMatches(s, r, q))
  }

  function FilterMessagesByRoomName(s: Store, q: string): (msgs: seq<Message>)
    ensures forall m :: m in msgs <==> m in s.messages && MessageMatchesSpec(s, m, q)
    ensures multiset(msgs) <= multiset(s.messages)
  {
    Filter(s.messages, (m: Message) => MessageMatches(s, m, q))
  }

  function FilterTopics(s: Store, q: string): (topics: seq<Topic>)
    ensures forall t :: t in topics <==> t in s.topics && TopicMatchesSpec(t, q)
    ensures multiset(topics) <= multiset(s.topics)
  {
    Filter(s.topics, (t: Topic) => IContains(t.name, q))
  }

  datatype HomePage = HomePage(
    rooms: seq<Room>,
    topics: seq<Topic>,
    roomCount: nat,
    roomMessages: seq<Message>)

  /** The home view for an optional query parameter. */
  function Home(s: Store, param: Option<string>): (p: HomePage)
    ensures p.roomCount == |p.rooms|
    ensures forall r :: r in p.rooms <==> r in s.rooms && RoomMatchesSpec(s, r, QueryOf(param))
    ensures forall m :: m in p.roomMessages <==> m in s.messages && MessageMatchesSpec(s, m, QueryOf(param))
    ensures |p.topics| <= SidebarTopics && p.topics <= s.topics
    ensures |p.topics| == SidebarTopics || p.topics == s.topics
  {
    var q := QueryOf(param);
    var rooms := FilterRooms(s, q);
    var sidebar := if |s.topics| <= SidebarTopics then s.topics else s.topics[..SidebarTopics];
    HomePage(rooms, sidebar, |rooms|, FilterMessagesByRoomName(s, q))
  }

  /** The topics view for an optional query parameter. */
  function TopicsPage(s: Store, param: Option<string>): (topics: seq<Topic>)
    ensures forall t :: t in topics <==> t in s.topics && TopicMatchesSpec(t, QueryOf(param))
  {
    FilterTopics(s, QueryOf(param))
  }

  /** With no query, or an empty one, the home page lists every room and every
      message whose room exists, and the topics page lists every topic. */
  lemma EmptyQueryListsEverything(s: Store, param: Option<string>)
    requires QueryOf(param) == ""
    ensures Home(s, param).rooms == s.rooms
    ensures Home(s, param).roomCount == |s.rooms|
    ensures TopicsPage(s, param) == s.topics
    ensures forall m :: m in Home(s, param).roomMessages <==> m in s.messages && HasRoom(s, m.room)
  {
    forall m | m in s.messages && HasRoom(s, m.room)
      ensures MessageMatchesSpec(s, m, "")
    {
      var n := RoomName(s, m.room).value;
      assert OccursAt(Lower(""), Lower(n), 0);
    }
    FilterEverything(s.rooms, (r: Room) => RoomMatches(s, r, ""));
    FilterEverything(s.topics, (t: Topic) => IContains(t.name, ""));
  }

  /** An absent parameter and an empty one give the same pages. */
  lemma AbsentQueryIsEmptyQuery(s: Store)
    ensures Home(s, None) == Home(s, Some(""))
    ensures TopicsPage(s, None) == TopicsPage(s, Some(""))
  {
  }

  lemma {:induction false} FilterEverything<T(!new)>(xs: seq<T>, p: T -> bool)
    requires forall x :: x in xs ==> p(x)
    ensures Filter(xs, p) == xs
  {
    if |xs| > 0 {
      assert xs == [xs[0]] + xs[1..];
      FilterEverything(xs[1..], p);
    }
  }
}

=== FILE: store.dfy ===
/** The forum's entity store, kept as immutable tables.

  Each table is a sequence in the store's natural (insertion) order, because
  the views slice and list rows in that order. Fresh topic, room and
  message ids come from one counter per table, as an auto-increment primary
  key would hand them out; no view here creates users, so the user table has
  no counter.
 */
module Store {

  datatype Option<T> = None | Some(value: T)

  type UserId = nat
  type TopicId = nat
  type RoomId = nat
  type MessageId = nat

  datatype User = User(id: UserId, username: string)

  datatype Topic = Topic(id: TopicId, name: string)

  /** A discussion room. `participants` is the many-to-many participant relation. */
  datatype Room = Room(
    id: RoomId,
    host: UserId,
    topic: TopicId,
    name: string,
    description: string,
    participants: set<UserId>)

  /** A message; `created` is the creation stamp the clock gave it. */
  datatype Message = Message(
    id: MessageId,
    author: UserId,
    room: RoomId,
    body: string,
    created: int)

  datatype Store = Store(
    users: seq<User>,
    topics: seq<Topic>,
    rooms: seq<Room>,
    messages: seq<Message>,
    nextTopic: TopicId,
    nextRoom: RoomId,
    nextMessage: MessageId)

  /** What a request handler answered, and the store afterwards. */
  datatype Status =
    | Done        // the mutation ran and the client is redirected
    | Shown       // a page (form, room, confirmation) was rendered; nothing written
    | Forbidden   // the actor does not own the row
    | NotFound    // no row has the requested id
    | Refused     // the insert refused an anonymous author

  datatype Response = Response(status: Status, store: Store)

  /** The first position whose row satisfies p, if any. */
  function IndexOf<T>(xs: seq<T>, p: T -> bool): (r: Option<nat>)
    ensures r.Some? ==> r.value < |xs| && p(xs[r.value])
    ensures r.Some? ==> forall j :: 0 <= j < r.value ==> !p(xs[j])
    ensures r.None? ==> forall j :: 0 <= j < |xs| ==> !p(xs[j])
  {
    if |xs| == 0 then None
    else if p(xs[0]) then Some(0)
    else match IndexOf(xs[1..], p)
      case None => None
      case Some(k) => Some(k + 1)
  }

  /** The rows that satisfy p, in table order. */
  function Filter<T(!new)>(xs: seq<T>, p: T -> bool): (r: seq<T>)
    ensures forall x :: x in r <==> x in xs && p(x)
    ensures multiset(r) <= multiset(xs)
  {
    if |xs| == 0 then []
    else
      assert xs == [xs[0]] + xs[1..];
      if p(xs[0]) then [xs[0]] + Filter(xs[1..], p) else Filter(xs[1..], p)
  }

  /** The table without the row at position i. */
  function RemoveAt<T>(xs: seq<T>, i: nat): (r: seq<T>)
    requires i < |xs|
    ensures |r| == |xs| - 1
    ensures multiset(r) == multiset(xs) - multiset{xs[i]}
    ensures forall j :: 0 <= j < i ==> r[j] == xs[j]
    ensures forall j :: i <= j < |r| ==> r[j] == xs[j + 1]
  {
    assert xs == xs[..i] + [xs[i]] + xs[i + 1..];
    xs[..i] + xs[i + 1..]
  }

  predicate IsUser(s: Store, id: UserId) {
    exists i :: 0 <= i < |s.users| && s.users[i].id == id
  }

  predicate HasTopic(s: Store, id: TopicId) {
    exists i :: 0 <= i < |s.topics| && s.topics[i].id == id
  }

  predicate HasTopicNamed(s: Store, name: string) {
    exists i :: 0 <= i < |s.topics| && s.topics[i].name == name
  }

  predicate HasRoom(s: Store, id: RoomId) {
    exists i :: 0 <= i < |s.rooms| && s.rooms[i].id == id
  }

  predicate HasMessage(s: Store, id: MessageId) {
    exists i :: 0 <= i < |s.messages| && s.messages[i].id == id
  }

  // Row lookups, as the ORM's `get` performs them: the position of the
  // first row with the key, or nothing when no row has it.

  function FindTopic(s: Store, id: TopicId): (r: Option<nat>)
    ensures r.Some? ==> r.value < |s.topics| && s.topics[r.value].id == id
    ensures r.None? <==> !HasTopic(s, id)
  {
    IndexOf(s.topics, (t: Topic) => t.id == id)
  }

  function FindTopicNamed(s: Store, name: string): (r: Option<nat>)
    ensures r.Some? ==> r.value < |s.topics| && s.topics[r.value].name == name
    ensures r.None? <==> !HasTopicNamed(s, name)
  {
    IndexOf(s.topics, (t: Topic) => t.name == name)
  }

  function FindRoom(s: Store, id: RoomId): (r: Option<nat>)
    ensures r.Some? ==> r.value < |s.rooms| && s.rooms[r.value].id == id
    ensures r.None? <==> !HasRoom(s, id)
  {
    IndexOf(s.rooms, (r: Room) => r.id == id)
  }

  function FindMessage(s: Store, id: MessageId): (r: Option<nat>)
    ensures r.Some? ==> r.value < |s.messages| && s.messages[r.value].id == id
    ensures r.None? <==> !HasMessage(s, id)
  {
    IndexOf(s.messages, (m: Message) => m.id == id)
  }

  /** The name of the topic with the given id, as a join on the topic table finds it. */
  function TopicName(s: Store, id: TopicId): (r: Option<string>)
    ensures r.Some? <==> HasTopic(s, id)
  {
    match FindTopic(s, id)
    case None => None
    case Some(i) => Some(s.topics[i].name)
  }

  /** The name of the room with the given id, as a join on the room table finds it. */
  function RoomName(s: Store, id: RoomId): (r: Option<string>)
    ensures r.Some? <==> HasRoom(s, id)
  {
    match FindRoom(s, id)
    case None => None
    case Some(i) => Some(s.rooms[i].name)
  }

  // Store invariant: topic, room and message keys are unique and below their counters,
  // topic names are unique (the get-or-create lookup relies on it), and
  // every reference a room or message holds to a user or topic resolves.

  ghost predicate TopicsWellKeyed(s: Store) {
    && (forall i, j :: 0 <= i < j < |s.topics| ==> s.topics[i].id != s.topics[j].id)
    && (forall i, j :: 0 <= i < j < |s.topics| ==> s.topics[i].name != s.topics[j].name)
    && (forall i :: 0 <= i < |s.topics| ==> s.topics[i].id < s.nextTopic)
  }

  ghost predicate RoomsWellKeyed(s: Store) {
    && (forall i, j :: 0 <= i < j < |s.rooms| ==> s.rooms[i].id != s.rooms[j].id)
    && (forall i :: 0 <= i < |s.rooms| ==> s.rooms[i].id < s.nextRoom)
  }

  ghost predicate MessagesWellKeyed(s: Store) {
    && (forall i, j :: 0 <= i < j < |s.messages| ==> s.messages[i].id != s.messages[j].id)
    && (forall i :: 0 <= i < |s.messages| ==> s.messages[i].id < s.nextMessage)
  }

  /** The host, the topic and every participant of `r` are stored. */
  ghost predicate RoomRefsResolve(s: Store, r: Room) {
    && IsUser(s, r.host)
    && HasTopic(s, r.topic)
    && forall u :: u in r.participants ==> IsUser(s, u)
  }

  ghost predicate ReferencesResolve(s: Store) {
    && (forall i :: 0 <= i < |s.rooms| ==> RoomRefsResolve(s, s.rooms[i]))
    && (forall i :: 0 <= i < |s.messages| ==> IsUser(s, s.messages[i].author))
  }

  ghost predicate Valid(s: Store) {
    && TopicsWellKeyed(s)
    && RoomsWellKeyed(s)
    && MessagesWellKeyed(s)
    && ReferencesResolve(s)
  }
}

=== FILE: text.dfy ===
/** Text predicates behind the forum's search lookups.

  The ORM's `contains` lookup is a case-sensitive substring test and
  `icontains` is the same test after folding both sides to lower case.
  Case folding is modelled for ASCII letters only.
 */
module Text {

  /** q occupies the window of s that starts at position i. */
  predicate OccursAt(q: string, s: string, i: int) {
    0 <= i && i + |q| <= |s| && s[i..i + |q|] == q
  }

  /** The reference meaning of "q occurs in s": some window of s equals q. */
  ghost predicate IsSubstring(q: string, s: string) {
    exists i :: OccursAt(q, s, i)
  }

  predicate IsPrefix(q: string, s: string) {
    |q| <= |s| && s[..|q|] == q
  }

  /** ASCII lower-casing of one character; every other character is kept. */
  function LowerChar(c: char): char {
    if 'A' <= c <= 'Z' then (c as int + 32) as char else c
  }

  function Lower(s: string): (r: string)
    ensures |r| == |s|
    ensures forall i :: 0 <= i < |s| ==> r[i] == LowerChar(s[i])
  {
    seq(|s|, i requires 0 <= i < |s| => LowerChar(s[i]))
  }

  /** A window of s is either at position 0 or a window of s[1..]. */
  lemma SubstringStep(q: string, s: string)
    requires |s| > 0
    ensures IsSubstring(q, s) <==> IsPrefix(q, s) || IsSubstring(q, s[1..])
  {
    if IsSubstring(q, s) && !IsPrefix(q, s) {
      var i :| OccursAt(q, s, i);
      assert i != 0;
      assert s[1..][i - 1..i - 1 + |q|] == q by {
        forall k | 0 <= k < |q|
          ensures s[1..][i - 1..i - 1 + |q|][k] == q[k]
        {
          assert s[i..i + |q|][k] == q[k];
        }
      }
      assert OccursAt(q, s[1..], i - 1);
    }
    if IsPrefix(q, s) {
      assert OccursAt(q, s, 0);
    }
    if IsSubstring(q, s[1..]) {
      var i :| OccursAt(q, s[1..], i);
      assert s[i + 1..i + 1 + |q|] == q;
      assert OccursAt(q, s, i + 1);
    }
  }

  /** Executable substring search: the `contains` lookup. */
  function Contains(s: string, q: string): (r: bool)
    ensures r <==> IsSubstring(q, s)
    decreases |s|
  {
    if IsPrefix(q, s) then
      assert OccursAt(q, s, 0);
      true
    else if |s| == 0 then
      false
    else
      SubstringStep(q, s);
      Contains(s[1..], q)
  }

  /** The `icontains` lookup: substring search after case folding. */
  function IContains(s: string, q: string): (r: bool)
    ensures r <==> IsSubstring(Lower(q), Lower(s))
  {
    Contains(Lower(s), Lower(q))
  }

  /** The empty query occurs in every text, which is why an empty search matches every row. */
  lemma EmptyOccursEverywhere(s: string)
    ensures Contains(s, "") && IContains(s, "")
  {
  }

  /** A case-sensitive hit is also a case-insensitive hit. */
  lemma {:induction false} ContainsImpliesIContains(s: string, q: string)
    requires Contains(s, q)
    ensures IContains(s, q)
  {
    var i :| OccursAt(q, s, i);
    assert Lower(s)[i..i + |q|] == Lower(q) by {
      forall k | 0 <= k < |q|
        ensures Lower(s)[i..i + |q|][k] == Lower(q)[k]
      {
        assert s[i + k] == q[k];
      }
    }
    assert OccursAt(Lower(q), Lower(s), i);
  }

  /** Folding is idempotent, so `icontains` cannot tell a text from its lower-case form. */
  lemma LowerIdempotent(s: string)
    ensures Lower(Lower(s)) == Lower(s)
  {
  }

  /** A query whose first character never appears in the text does not occur in it. */
  lemma FirstCharAbsent(s: string, q: string)
    requires |q| > 0
    requires forall k :: 0 <= k < |s| ==> s[k] != q[0]
    ensures !Contains(s, q)
  {
  }
}
